=== FILE: README.md ===
# Prompt_OS project list and its backend, modelled in Dafny

Prompt_OS is a small prompt-management web app. A Next.js page lists the
signed-in user's projects and offers a modal form to create one. A FastAPI
backend authenticates each request with a Clerk-issued JWT and stores
projects per owner. This project models the three pieces of logic in that
code and proves what they promise:

- the page's state machine (`ProjectList`, `ProjectView`). The home page
  (`app/page.tsx`) and the dashboard page (`app/dashboard/page.tsx`) hold the
  same state: the project list, `loading`, `error`, the modal flag, the two
  draft fields and `isCreating`. `fetchProjects` and `handleCreateProject`
  are pure functions over it. They take the outcomes of their awaits (token,
  HTTP response, JSON body) as parameters and return the new state with the
  requests and alerts produced. A `Variant` flag covers the two pages'
  differences: a blank name is alerted only on the dashboard, and a failed
  creation goes to `error` on the home page and to an alert on the dashboard.
- the backend (`Backend`): the case-sensitive `Bearer` header check, with
  every failure collapsed into one 401, auto-provisioning of users, and the
  two project endpoints over in-memory `users` and `projects` tables.
- the token verifier (`ClerkClient`). It derives the key-set (JWKS) URL from
  the issuer and caches the key set. It picks the first key whose `kid`
  matches (section 4.5 of RFC 7517) and refetches once when none does. It
  requires `kid` (section 4.1.4 of RFC 7515) and `sub` (section 4.1.2 of
  RFC 7519). The JWT library is an abstract value; the RS256 signature check
  inside it is an uninterpreted predicate.

`Text` models the string primitives the code relies on. These are
JavaScript `trim`, Python `str.split(' ')` and Python `str.rstrip('/')`.
`HeaderValue` models how `fetch` normalizes a header value before sending
it: leading and trailing HTTP whitespace is stripped (the Fetch Standard's
header value normalization). `Wiring` connects the two halves. It proves
which headers the pages build pass the backend's check, and that the
listing the backend returns is what the page renders.

Three behaviours of the code are easy to miss:
- Cancelling the form closes the modal but does not clear the draft.
- The create handler does not check that a token was obtained. It sends
  `Bearer null`.
- The home page shows a failed creation in the shared `error` field. That
  field is never reset to `null`, so the error screen keeps replacing the
  list. Only a later failure whose message is empty brings the list back.

## Model

| member | source | states |
|---|---|---|
| Text.TrimEmptyIffBlank | frontend/src/app/page.tsx:67 | `name.trim()` is empty exactly when every character of the name is JavaScript whitespace or a line terminator |
| Text.Trim | frontend/src/app/page.tsx:67 | `trim()` returns the input with a blank prefix and a blank suffix removed, and the result neither starts nor ends with JavaScript whitespace |
| Text.Split | backend/main.py:52 | `split(' ')` yields one more part than there are spaces, no part contains a space, and joining the parts with spaces gives back the header |
| Text.RStrip | backend/clerk_client.py:18 | `rstrip("/")` removes exactly the trailing slashes: the result is a prefix of the input, does not end in `/`, and only slashes were removed |
| ClerkClient.New | backend/clerk_client.py:13-19 | construction fails with the fixed message exactly when the issuer is unset or empty; otherwise the key-set URL is the issuer without trailing slashes followed by `/.well-known/jwks.json`, and the cache starts empty |
| ClerkClient.IssuerSlashesIgnored | backend/clerk_client.py:18 | any number of trailing slashes on the issuer gives the same key-set URL |
| ClerkClient.GetJwks | backend/clerk_client.py:21-30 | a true (non-empty) cached key set is returned without a request; otherwise one request is sent, and its body is both returned and cached; a failed request leaves the client unchanged |
| ClerkClient.FindKey | backend/clerk_client.py:41-45 | the selected entry is the first whose `kid` equals the header's `kid`; no selection means no entry matches |
| ClerkClient.Finish | backend/clerk_client.py:58-78 | one clause per outcome of decoding with the selected key and the slash-stripped issuer: an unbuildable key and any other decode error are wrapped in the `Token doğrulama hatası: ` message; an expired signature and a wrong issuer raise their own fixed messages; a missing or empty `sub` is wrapped as the missing-`sub` message; a non-empty `sub` is returned as the user id |
| ClerkClient.VerifyToken | backend/clerk_client.py:32-78 | at most two key-set requests; with no request the client is unchanged; a failed first key-set request, an unreadable header and a header without a non-empty `kid` each fail with their wrapped message; every failure has one of the three message shapes; success returns a non-empty user id and leaves a key set cached; when the first key-set request fails, the token has no usable `kid`, or the first key set has a matching key, exactly the requests of that first lookup are sent (none for a true cache, else one) and its client, with the fetched set cached, is what remains; once a key is chosen, the result and its message (expired, wrong issuer, wrapped decode error, missing `sub`, or the id) are exactly those the steps after key selection give for that key |
| ClerkClient.VerifyTokenAccepts | backend/clerk_client.py:35-70 | both directions: a token is accepted exactly when a key is chosen for its `kid` (first match in the first key set, else first match in the refetched set) and decoding with it yields a non-empty `sub`; the returned id is that `sub`, and the chosen key is the one selected from the key set cached afterwards |
| ClerkClient.CachedKeyNeedsNoFetch | backend/clerk_client.py:35-45 | a true cache that holds a key for the token's `kid` is used without any request and the client is left unchanged |
| ClerkClient.NoMatchRefetchesOnce | backend/clerk_client.py:47-56 | when the first key set has no key for the `kid`, the cache is cleared and exactly one more request is sent; the token is accepted only if the refetched set has a matching key, and that set is then cached; if the refetched set has no match either, the failure is the wrapped no-key message naming the `kid` |
| ClerkClient.AcceptedTokenIsSigned | backend/clerk_client.py:35-70 | if the library only decodes correctly signed tokens, an accepted token has a `kid` and carries a valid signature by the first matching key of the cached key set |
| Backend.ParseAuthorization | backend/main.py:48-56 | a missing or empty header is rejected with 401; an accepted header is exactly `Bearer ` followed by the returned token, which contains no space |
| Backend.BearerHeaderAccepted | backend/main.py:52-57 | every `Bearer ` header whose token has no space is accepted, and the token passed on to verification is exactly that token |
| Backend.ParseAuthorizationExact | backend/main.py:52-56 | both directions: the header check yields token `t` if and only if the header is `Bearer ` followed by `t` and `t` has no space (so `bearer` or a double space is refused) |
| Backend.Provision | backend/main.py:68-77 | an unknown user id is appended and returned; a known one is returned with the tables unchanged; the user-id primary key stays unique |
| Backend.GetCurrentUser | backend/main.py:46-77 | every header or verification failure is the single 401 `Invalid authentication credentials` with no table change; success happens exactly when the token verifies, and returns the verified id, with the tables exactly as provisioning that id leaves them; once the header passes, the verifier (with its key-set cache) is the one verification leaves, so the cache carries over to later requests |
| Backend.Insert | backend/main.py:91-95 | the inserted row has the request's name and description, the current user as owner and a fresh id, and is appended; the table constraints are kept |
| Backend.OwnedBy | backend/main.py:103 | a row is listed if and only if it is stored and owned by the given user, and each owned row appears exactly as many times as it is stored (so once, the ids being unique) |
| Backend.CreateProject | backend/main.py:85-95 | an unauthenticated request gets the 401 and changes nothing; an authenticated one provisions the verified user and appends exactly one row owned by that id, with the request's name and description; the verifier is left as authentication leaves it |
| Backend.ReadProjects | backend/main.py:98-104 | an authenticated request provisions the verified user, changes no project and returns the listing `OwnedBy` gives over the stored rows for that id: exactly the owned rows, in table order; the verifier is left as authentication leaves it; a failure is the 401 |
| Backend.ListingAfterCreate | backend/main.py:91-103 | after a user creates a project, that user's listing gains exactly the new row at its end, and every other user's listing is unchanged |
| ProjectList.BearerHeader | frontend/src/app/page.tsx:76 | the header is `Bearer ` followed by the token, or by `null` when the token is null |
| ProjectList.FetchProjects | frontend/src/app/page.tsx:36-57 | `loading` ends false and the form is untouched; a missing or empty token gives `Authentication token not found.` and sends no request; a non-ok reply gives `Failed to fetch projects: ` plus the status text; a thrown `getToken`, a rejected `fetch` and a failing `response.json()` store their own message; any failure keeps the list and leaves an error; success replaces the list by the response body in order and keeps the error |
| ProjectList.FetchIdempotent | frontend/src/app/page.tsx:50-51 | fetching twice against an unchanged backend leaves the same state as fetching once |
| ProjectList.CreateFailed | frontend/src/app/dashboard/page.tsx:88-92 | a failed creation resets the submitting flag and keeps the list, modal and draft; the home page stores the message in `error`, the dashboard alerts `Hata: ` plus the message and leaves `error` alone |
| ProjectList.PostDraft | frontend/src/app/page.tsx:68-96 | the first request posts the untrimmed draft; success closes the modal, clears both fields and refetches once, with that refetch's requests following the post; failure keeps the draft and modal and sends no list request, and is reported as `CreateFailed` with the token error, the network error or `Proje oluşturulamadı.` (so the home page stores it and the dashboard alerts it); the submitting flag always ends false |
| ProjectList.CreateProject | frontend/src/app/dashboard/page.tsx:55-60 | a blank name changes no state and sends no request; the dashboard alerts `Proje adı boş olamaz.`, the home page stays silent |
| ProjectList.Apply | frontend/src/app/dashboard/page.tsx:105-168 | typing changes only the typed field; opening sets the modal flag; cancelling clears it unless the dashboard is submitting; neither changes anything else; a submit while a creation runs (the button is disabled) or while the name is empty (the input is `required`) does nothing; a load and a submit otherwise run the fetch and create handlers |
| ProjectList.OpenForm | frontend/src/app/dashboard/page.tsx:105 | opening the form changes only the modal flag |
| ProjectList.CancelForm | frontend/src/app/dashboard/page.tsx:157-161 | cancel closes the modal unless the dashboard is submitting, and never touches the draft |
| ProjectList.ErrorNeverCleared | frontend/src/app/page.tsx:52-53 | once set, `error` stays non-null through any sequence of events |
| ProjectList.SettledStaysSettled | frontend/src/app/page.tsx:54-56 | from a settled page, no sequence of events leaves the page loading or submitting |
| ProjectList.ListOnlyReplacedWholesale | frontend/src/app/dashboard/page.tsx:40-41 | after any sequence of events, the list is the starting list or a list delivered unchanged by one of the loads or refreshes |
| ProjectView.DescriptionText | frontend/src/app/page.tsx:166 | a null or empty description shows `Açıklama yok.`; any other is shown as is |
| ProjectView.Render | frontend/src/app/dashboard/page.tsx:96-126 | the loading notice exactly while loading; otherwise the error exactly when it is a non-empty string; otherwise the empty state exactly when the list is empty, else one card per project in order with its id, name and description text |
| ProjectView.InitialShowsLoading | frontend/src/app/page.tsx:25-33 | the initial state (empty list, loading, no error, closed modal, empty draft, not submitting) renders the loading notice |
| ProjectView.SingleProjectScenario | frontend/src/app/page.tsx:160-166 | a successful load of one project `Alpha` without a description renders one card `Alpha` with the fallback text |
| ProjectView.HomeCreateFailureShowsError | frontend/src/app/page.tsx:92-100 | on the home page a failed creation with a non-empty message replaces the list by the error screen |
| HeaderValue.Normalize | frontend/src/app/page.tsx:76 | the value sent is the built header with HTTP whitespace stripped at both ends only: a slice between a blank prefix and a blank suffix that neither starts nor ends with HTTP whitespace |
| Wiring.PageHeaderReachesVerification | backend/main.py:52-57 | the header string the pages build, taken as is, passes the backend's check exactly when the token has no space, and then verification gets the page's token |
| Wiring.SentHeaderReachesVerification | backend/main.py:52-57 | for a non-empty printable-ASCII (JWT-shaped) token, `fetch` sends the header unchanged, it passes the backend's check, and verification gets exactly the page's token |
| Wiring.EmptyTokenHeaderRefused | frontend/src/app/page.tsx:70-76 | the create handler does not check for an empty token; its header `Bearer ` arrives as the bare `Bearer` and the backend refuses it |
| Wiring.NullTokenIsVerifiedAsText | frontend/src/app/page.tsx:70-76 | without a session, the create handler's `Bearer null` is sent unchanged, passes the header check, and the string `null` goes to verification |
| Wiring.ListingReachesPage | backend/main.py:98-104 | for any header that parses to the page's non-empty token, with no error on screen (`ShowsOwnListing`): a successful listing belongs to the user that token verifies as, and the page renders one card per returned row, in order, each owned by that user and stored, or the empty state |
| Wiring.PageShowsOwnProjects | backend/main.py:98-104 | for a JWT-shaped token and the header the page builds for it, as `fetch` sends it: when that request gets a listing, the verified user is the one the page's token verifies as, and the page, loading that list, shows one card per returned row in the order sent, each owned by that user and stored, with its id, name and description text, or the empty state when there are none, unless an error is already on screen (`ShowsOwnListing`) |

## Left out

- Markup, styling, the home page's per-card link and the modal widgets: they are presentation only. Rendering is reduced to the choice among loading, error, empty state and cards.
- The renders between awaits: `loading = true` during a fetch and `isCreating = true` during a post. Each handler is one atomic step; only the state it settles in is modelled.
- Overlapping fetches or creations, and updates after unmount: the code does not coordinate them.
- `getToken`, `fetch`, `response.json()`, the backend URL variable and the key-set HTTP client: they are I/O. Their outcomes are parameters.
- Response bodies that are not a list of projects, thrown values without a `message`, key sets whose `keys` is not a list, entries that are not objects, and non-string `kid`/`sub` values: the model types these JSON values.
- `jwt.get_unverified_header`, `jwt.decode` and `RSAAlgorithm.from_jwk`: they are foreign library code. The first two are fields of an abstract library value, with the signature check as an uninterpreted predicate; `from_jwk`'s result is part of each key entry.
- The route guard (`middleware.ts`), `layout.tsx`, `Header.tsx` and the Clerk SDK calls: they are thin wrappers over a library that is not part of this model.
- SQLAlchemy sessions, commit/refresh and database errors: persistence plumbing. A database error in the user lookup falls outside the 401 collapsing and is not modelled. Ids come from a counter, like SQLite's rowid with no deletions.
- Request-body validation (422) and `/api/hello`: FastAPI machinery and a constant reply. CORS and the debug `print` are configuration and logging.
- Concurrent backend requests: each request is modelled alone. The module-level verifier's key-set cache is shared by requests that can interleave at its awaits, and two first requests of a new user can both miss the lookup and both insert the user.
- Row order of the project listing: the query has no `ORDER BY`, so the database may return the rows in any order; the model returns them in insertion order.
- `fetch`'s header-value validation: it throws on a value holding a NUL, CR or LF, or a character above U+00FF. `HeaderValue` models only the whitespace stripping, so the end-to-end lemmas take JWT-shaped tokens, which pass that validation.
- ProjectList.Apply: events are accepted in every state, including ones where the program shows no form (modal closed, page loading, error screen). This over-approximates the reachable events, so the `Run` lemmas still hold for the program.

=== FILE: backend.dfy ===
/**
 * The FastAPI backend: the `Authorization` header check and user lookup of
 * `get_current_user`, and the two project endpoints over a store of users
 * and projects. The database is an in-memory pair of tables; the verifier is
 * the `ClerkClient` model.
 */
module Backend {
  import opened Results
  import opened Text
  import Clerk = ClerkClient

  datatype HttpError = HttpError(status: int, detail: string)

  /** The single error every authentication failure is reported as. */
  const Unauthorized := HttpError(401, "Invalid authentication credentials")

  datatype User = User(id: string)
  datatype ProjectRow = ProjectRow(id: int, name: string, description: Option<string>, ownerId: string)
  /** Request body of `POST /api/projects`. */
  datatype ProjectCreate = ProjectCreate(name: string, description: Option<string>)

  /** The `users` and `projects` tables, in insertion order, and the id the
      next inserted project receives. */
  datatype Db = Db(users: seq<User>, projects: seq<ProjectRow>, nextId: int)

  predicate HasUser(db: Db, id: string) {
    exists i :: 0 <= i < |db.users| && db.users[i].id == id
  }

  /** Table constraints: user ids are a primary key, project ids are unique
      (assigned in increasing order, below `nextId`) and every owner exists. */
  predicate Valid(db: Db) {
    && (forall i, j :: 0 <= i < j < |db.users| ==> db.users[i].id != db.users[j].id)
    && (forall i, j :: 0 <= i < j < |db.projects| ==> db.projects[i].id < db.projects[j].id)
    && (forall i :: 0 <= i < |db.projects| ==> db.projects[i].id < db.nextId)
    && (forall i :: 0 <= i < |db.projects| ==> HasUser(db, db.projects[i].ownerId))
  }

  const EmptyDb := Db([], [], 1)

  /** The header check of `get_current_user`: the header must be present and
      non-empty, and splitting it on single spaces must give exactly
      `["Bearer", token]`. The scheme name is compared case-sensitively. */
  function ParseAuthorization(header: Option<string>): (r: Result<string, HttpError>)
    ensures r.Failure? ==> r.error.status == 401
    ensures header.None? || header == Some("") ==> r.Failure?
    ensures r.Success? ==> header == Some("Bearer " + r.value) && ' ' !in r.value
  {
    if header.None? || header.value == "" then Failure(HttpError(401, "Authorization header missing"))
    else
      var parts := Split(header.value, ' ');
      if |parts| != 2 || parts[0] != "Bearer" then Failure(HttpError(401, "Invalid authorization header format"))
      else
        assert Join(parts[1..], ' ') == parts[1];
        assert header.value == "Bearer" + [' '] + parts[1] == "Bearer " + parts[1];
        Success(parts[1])
  }

  /** Completeness of the header check: every `Bearer` header whose token has
      no space is accepted, and the token handed on is exactly that token. */
  lemma BearerHeaderAccepted(token: string)
    requires ' ' !in token
    ensures ParseAuthorization(Some("Bearer " + token)) == Success(token)
  {
    assert "Bearer " + token == "Bearer" + [' '] + token;
    SplitFirst("Bearer", ' ', token);
    SplitAbsent(token, ' ');
  }

  /** The header check accepts exactly the headers `"Bearer " + t` with `t`
      free of spaces. */
  lemma ParseAuthorizationExact(h: string, token: string)
    ensures ParseAuthorization(Some(h)) == Success(token) <==> h == "Bearer " + token && ' ' !in token
  {
    if h == "Bearer " + token && ' ' !in token {
      BearerHeaderAccepted(token);
    }
  }

  /** The auto-provisioning of `get_current_user`: an unknown id is inserted,
      a known one is looked up and nothing is inserted. */
  function Provision(db: Db, id: string): (r: (Db, User))
    ensures r.1 == User(id)
    ensures r.0.projects == db.projects && r.0.nextId == db.nextId
    ensures HasUser(db, id) ==> r.0 == db
    ensures !HasUser(db, id) ==> r.0.users == db.users + [User(id)]
    ensures HasUser(r.0, id)
    ensures Valid(db) ==> Valid(r.0)
  {
    if HasUser(db, id) then (db, User(id))
    else
      var db' := db.(users := db.users + [User(id)]);
      assert db'.users[|db.users|].id == id;
      assert forall u :: HasUser(db, u) ==> HasUser(db', u) by {
        forall u | HasUser(db, u) ensures HasUser(db', u) {
          var i :| 0 <= i < |db.users| && db.users[i].id == u;
          assert db'.users[i].id == u;
        }
      }
      (db', User(id))
  }

  /** Outcome of a request: the store and verifier after it, and the response. */
  datatype Served<T> = Served(db: Db, client: Clerk.Client, response: Result<T, HttpError>)

  /** The user id a request with this header authenticates as, if any. */
  function AuthenticatedId(client: Clerk.Client, header: Option<string>, lib: Clerk.JwtLib,
                           first: Clerk.FetchResult, second: Clerk.FetchResult): Option<string>
  {
    match ParseAuthorization(header)
    case Failure(_) => None
    case Success(token) =>
      var v := Clerk.VerifyToken(client, token, lib, first, second);
      if v.result.Success? then Some(v.result.value) else None
  }

  /** `get_current_user`: every failure in the header check or verification
      becomes the same 401; a verified id is provisioned and returned. */
  function GetCurrentUser(db: Db, client: Clerk.Client, header: Option<string>, lib: Clerk.JwtLib,
                          first: Clerk.FetchResult, second: Clerk.FetchResult): (r: Served<User>)
    ensures r.response.Failure? ==> r.response.error == Unauthorized && r.db == db
    ensures r.response.Success? <==> AuthenticatedId(client, header, lib, first, second).Some?
    ensures r.response.Success? ==>
      && r.response.value.id == AuthenticatedId(client, header, lib, first, second).value
      && r.response.value.id != ""
      && HasUser(r.db, r.response.value.id)
      && r.db.projects == db.projects && r.db.nextId == db.nextId
    ensures r.response.Success? ==> r.db == Provision(db, r.response.value.id).0
    ensures ParseAuthorization(header).Failure? ==> r.client == client
    ensures ParseAuthorization(header).Success? ==>
      r.client == Clerk.VerifyToken(client, ParseAuthorization(header).value, lib, first, second).client
    ensures Valid(db) ==> Valid(r.db)
  {
    match ParseAuthorization(header)
    case Failure(_) => Served(db, client, Failure(Unauthorized))
    case Success(token) =>
      var v := Clerk.VerifyToken(client, token, lib, first, second);
      match v.result
      case Failure(_) => Served(db, v.client, Failure(Unauthorized))
      case Success(userId) =>
        if userId == "" then Served(db, v.client, Failure(Unauthorized))
        else
          var p := Provision(db, userId);
          Served(p.0, v.client, Success(p.1))
  }

  /** The row `create_project` inserts for `user`. */
  function Insert(db: Db, user: User, req: ProjectCreate): (r: (Db, ProjectRow))
    ensures r.1 == ProjectRow(db.nextId, req.name, req.description, user.id)
    ensures r.0.users == db.users && r.0.projects == db.projects + [r.1]
    ensures r.0.nextId > db.nextId
    ensures Valid(db) ==> forall i :: 0 <= i < |db.projects| ==> db.projects[i].id != r.1.id
    ensures Valid(db) && HasUser(db, user.id) ==> Valid(r.0)
  {
    var row := ProjectRow(db.nextId, req.name, req.description, user.id);
    var db' := db.(projects := db.projects + [row], nextId := db.nextId + 1);
    assert forall u :: HasUser(db, u) ==> HasUser(db', u);
    (db', row)
  }

  /** The rows of `projects` owned by `owner`, in table order. */
  function OwnedBy(projects: seq<ProjectRow>, owner: string): (r: seq<ProjectRow>)
    ensures |r| <= |projects|
    ensures forall p :: p in r <==> p in projects && p.ownerId == owner
    ensures forall p :: multiset(r)[p] == if p.ownerId == owner then multiset(projects)[p] else 0
  {
    if |projects| == 0 then []
    else
      var rest := OwnedBy(projects[1..], owner);
      assert projects == [projects[0]] + projects[1..];
      assert forall p :: p in projects <==> p == projects[0] || p in projects[1..];
      if projects[0].ownerId == owner then [projects[0]] + rest else rest
  }

  lemma {:induction false} OwnedByAppend(a: seq<ProjectRow>, b: seq<ProjectRow>, owner: string)
    ensures OwnedBy(a + b, owner) == OwnedBy(a, owner) + OwnedBy(b, owner)
    decreases |a|
  {
    if |a| == 0 {
      assert a + b == b;
    } else {
      assert (a + b)[1..] == a[1..] + b;
      OwnedByAppend(a[1..], b, owner);
    }
  }

  /** `POST /api/projects`. */
  function CreateProject(db: Db, client: Clerk.Client, header: Option<string>, lib: Clerk.JwtLib,
                         first: Clerk.FetchResult, second: Clerk.FetchResult, req: ProjectCreate): (r: Served<ProjectRow>)
    ensures r.response.Failure? ==> r.response.error == Unauthorized && r.db == db
    ensures r.response.Success? <==> AuthenticatedId(client, header, lib, first, second).Some?
    ensures r.response.Success? ==>
      var row := r.response.value;
      && row.ownerId == AuthenticatedId(client, header, lib, first, second).value
      && row.name == req.name && row.description == req.description
      && r.db.projects == db.projects + [row]
      && r.db.users == Provision(db, row.ownerId).0.users
    ensures r.client == GetCurrentUser(db, client, header, lib, first, second).client
    ensures Valid(db) ==> Valid(r.db)
  {
    var auth := GetCurrentUser(db, client, header, lib, first, second);
    match auth.response
    case Failure(e) => Served(auth.db, auth.client, Failure(e))
    case Success(user) =>
      var ins := Insert(auth.db, user, req);
      Served(ins.0, auth.client, Success(ins.1))
  }

  /** `GET /api/projects`. */
  function ReadProjects(db: Db, client: Clerk.Client, header: Option<string>, lib: Clerk.JwtLib,
                        first: Clerk.FetchResult, second: Clerk.FetchResult): (r: Served<seq<ProjectRow>>)
    ensures r.response.Failure? ==> r.response.error == Unauthorized && r.db == db
    ensures r.response.Success? <==> AuthenticatedId(client, header, lib, first, second).Some?
    ensures r.response.Success? ==>
      var owner := AuthenticatedId(client, header, lib, first, second).value;
      && r.db.projects == db.projects
      && r.db.users == Provision(db, owner).0.users
      && (forall p :: p in r.response.value <==> p in db.projects && p.ownerId == owner)
      && r.response.value == OwnedBy(db.projects, owner)
    ensures r.client == GetCurrentUser(db, client, header, lib, first, second).client
    ensures Valid(db) ==> Valid(r.db)
  {
    var auth := GetCurrentUser(db, client, header, lib, first, second);
    match auth.response
    case Failure(e) => Served(auth.db, auth.client, Failure(e))
    case Success(user) => Served(auth.db, auth.client, Success(OwnedBy(auth.db.projects, user.id)))
  }

  /** After a user creates a project, their listing is the old listing plus
      the new row at the end, and every other user's listing is unchanged. */
  lemma ListingAfterCreate(db: Db, user: User, req: ProjectCreate, other: string)
    requires other != user.id
    ensures var ins := Insert(db, user, req);
      && OwnedBy(ins.0.projects, user.id) == OwnedBy(db.projects, user.id) + [ins.1]
      && OwnedBy(ins.0.projects, other) == OwnedBy(db.projects, other)
  {
    var ins := Insert(db, user, req);
    OwnedByAppend(db.projects, [ins.1], user.id);
    OwnedByAppend(db.projects, [ins.1], other);
    assert OwnedBy([ins.1], other) == [];
  }
}

=== FILE: clerk_client.dfy ===
/**
 * The backend's JWT verifier: it derives the JWKS address from the issuer,
 * caches the fetched key set, picks the first key whose `kid` equals the
 * token header's `kid` (section 4.5 of RFC 7517), refetches the key set once
 * when no key matches, and demands a `sub` claim (section 4.1.2 of RFC 7519).
 *
 * The HTTP GETs of the key set are replaced by their outcomes, given as
 * parameters; the JWT library (header parsing, RS256 decoding, signature
 * checking) is an abstract value `JwtLib`.
 */
module ClerkClient {
  import opened Results
  import opened Text

  const JwksPath := "/.well-known/jwks.json"
  const IssuerUnsetMessage := "CLERK_ISSUER_URL ortam değişkeni .env dosyasında ayarlanmamış."
  const KidMissingMessage := "Token header'ında 'kid' (Key ID) bulunamadı."
  const SubMissingMessage := "Token payload'ında 'sub' (subject/user ID) alanı bulunamadı."
  const ExpiredMessage := "Token'ın süresi dolmuş."
  const BadIssuerMessage := "Token'ın 'issuer' bilgisi geçersiz."
  const WrapPrefix := "Token doğrulama hatası: "

  function NoKeyMessage(kid: string): string {
    "Token'ı doğrulayacak uygun bir public key bulunamadı (kid: " + kid + ")."
  }

  /** The message of the exception every other failure is re-raised as. */
  function Wrap(inner: string): (m: string)
    ensures WrapPrefix <= m
  {
    WrapPrefix + inner
  }

  /** An RSA public key as `RSAAlgorithm.from_jwk` builds it; its contents
      only matter to the abstract signature check. */
  datatype PublicKey = PublicKey(modulus: nat, exponent: nat)

  /** One entry of the key set. `parsed` is what `from_jwk` yields for it:
      the key, or the message of the exception it raises. */
  datatype Jwk = Jwk(kid: Option<string>, parsed: Result<PublicKey, string>)

  /** The key-set JSON object: its `keys` member (absent or a list) and how
      many other members it has. Python treats it as true when non-empty. */
  datatype JwksDoc = JwksDoc(keys: Option<seq<Jwk>>, otherMembers: nat) {
    predicate Truthy() {
      keys.Some? || otherMembers > 0
    }
    /** `jwks.get("keys", [])` */
    function KeyList(): seq<Jwk> {
      keys.GetOr([])
    }
  }

  /** Outcome of one GET of the key set: the parsed body, or the message of
      the transport, status (`raise_for_status`) or JSON error. */
  datatype FetchResult = FetchFailed(message: string) | Fetched(doc: JwksDoc)

  datatype Client = Client(issuer: string, jwksUrl: string, cache: Option<JwksDoc>)

  /** `base` is `issuer` without its trailing slashes and without anything else removed. */
  predicate SlashStripped(issuer: string, base: string) {
    && |base| <= |issuer|
    && base == issuer[..|base|]
    && (base == [] || base[|base| - 1] != '/')
    && (forall i :: |base| <= i < |issuer| ==> issuer[i] == '/')
  }

  /** `ClerkClient()` with the value of `CLERK_ISSUER_URL`. */
  function New(issuer: Option<string>): (r: Result<Client, string>)
    ensures r.Success? <==> issuer.Some? && issuer.value != ""
    ensures r.Failure? ==> r.error == IssuerUnsetMessage
    ensures r.Success? ==> r.value.issuer == issuer.value && r.value.cache.None?
    ensures r.Success? ==> |JwksPath| <= |r.value.jwksUrl|
    ensures r.Success? ==>
      var url := r.value.jwksUrl;
      url[|url| - |JwksPath|..] == JwksPath && SlashStripped(issuer.value, url[..|url| - |JwksPath|])
  {
    if issuer.None? || issuer.value == "" then Failure(IssuerUnsetMessage)
    else
      var base := RStrip(issuer.value, '/');
      var url := base + JwksPath;
      assert url[..|url| - |JwksPath|] == base;
      assert url[|url| - |JwksPath|..] == JwksPath;
      Success(Client(issuer.value, url, None))
  }

  /** Trailing slashes on the issuer do not change the key-set address. */
  lemma IssuerSlashesIgnored(issuer: string, k: nat)
    requires issuer != ""
    ensures New(Some(issuer + Repeat('/', k))).Success?
    ensures New(Some(issuer + Repeat('/', k))).value.jwksUrl == New(Some(issuer)).value.jwksUrl
  {
    RStripIgnoresTrailing(issuer, '/', k);
  }

  datatype JwksStep = JwksStep(client: Client, jwks: Result<JwksDoc, string>, fetched: bool)

  /** `_get_jwks`: a true cache is returned without a request; otherwise the
      key set is fetched and, on success, cached. */
  function GetJwks(c: Client, response: FetchResult): (r: JwksStep)
    ensures r.client.issuer == c.issuer && r.client.jwksUrl == c.jwksUrl
    ensures !r.fetched <==> c.cache.Some? && c.cache.value.Truthy()
    ensures !r.fetched ==> r.client == c && r.jwks == Success(c.cache.value)
    ensures r.fetched && response.FetchFailed? ==> r.client == c && r.jwks == Failure(response.message)
    ensures r.fetched && response.Fetched? ==>
      r.jwks == Success(response.doc) && r.client.cache == Some(response.doc)
  {
    if c.cache.Some? && c.cache.value.Truthy() then JwksStep(c, Success(c.cache.value), false)
    else
      match response
      case FetchFailed(m) => JwksStep(c, Failure(m), true)
      case Fetched(doc) => JwksStep(c.(cache := Some(doc)), Success(doc), true)
  }

  /** Index of the first key whose `kid` equals `kid`, as the source's
      `for … break` loop finds it. */
  function FindKey(keys: seq<Jwk>, kid: string): (r: Option<nat>)
    ensures r.Some? ==> r.value < |keys| && keys[r.value].kid == Some(kid)
    ensures r.Some? ==> forall j :: 0 <= j < r.value ==> keys[j].kid != Some(kid)
    ensures r.None? ==> forall j :: 0 <= j < |keys| ==> keys[j].kid != Some(kid)
  {
    if |keys| == 0 then None
    else if keys[0].kid == Some(kid) then Some(0)
    else
      match FindKey(keys[1..], kid)
      case None => None
      case Some(i) => Some(i + 1)
  }

  datatype TokenHeader = TokenHeader(kid: Option<string>)
  datatype Claims = Claims(sub: Option<string>)

  /** What `jwt.decode` does: return the payload or raise one of the two
      errors the verifier singles out, or any other error. */
  datatype DecodeOutcome = Decoded(claims: Claims) | ExpiredSignature | InvalidIssuer | DecodeFailed(message: string)

  /** The JWT library, abstract: `get_unverified_header`, `jwt.decode` with
      RS256 and the expected issuer, and the RS256 signature check. */
  datatype JwtLib = JwtLib(
    unverifiedHeader: string -> Result<TokenHeader, string>,
    decode: (string, PublicKey, string) -> DecodeOutcome,
    signatureValid: (string, PublicKey) -> bool)

  /** The library's promise: it only decodes tokens whose signature checks. */
  ghost predicate ChecksSignature(lib: JwtLib) {
    forall token, key, iss :: lib.decode(token, key, iss).Decoded? ==> lib.signatureValid(token, key)
  }

  /** The token's header names a key: `kid` present and non-empty. */
  predicate HasKid(lib: JwtLib, token: string) {
    var h := lib.unverifiedHeader(token);
    h.Success? && h.value.kid.Some? && h.value.kid.value != ""
  }

  /** The three shapes of the exception `verify_token` raises. */
  predicate IsVerifyError(m: string) {
    m == ExpiredMessage || m == BadIssuerMessage || WrapPrefix <= m
  }

  /** Result of `verify_token`: the client with its cache as left by the call,
      the user id (`{"sub": sub}`) or the exception message, and how many
      key-set requests were sent. */
  datatype Verified = Verified(client: Client, result: Result<string, string>, fetches: nat)

  /** The steps after key selection: build the key, decode, require `sub`. */
  function Finish(c: Client, token: string, lib: JwtLib, jwk: Jwk, fetches: nat): (r: Verified)
    ensures r.client == c && r.fetches == fetches
    ensures r.result.Failure? ==> IsVerifyError(r.result.error)
    ensures jwk.parsed.Failure? ==> r.result == Failure(Wrap(jwk.parsed.error))
    ensures jwk.parsed.Success? && lib.decode(token, jwk.parsed.value, RStrip(c.issuer, '/')).ExpiredSignature? ==>
      r.result == Failure(ExpiredMessage)
    ensures jwk.parsed.Success? && lib.decode(token, jwk.parsed.value, RStrip(c.issuer, '/')).InvalidIssuer? ==>
      r.result == Failure(BadIssuerMessage)
    ensures jwk.parsed.Success? ==>
      var out := lib.decode(token, jwk.parsed.value, RStrip(c.issuer, '/'));
      && (out.DecodeFailed? ==> r.result == Failure(Wrap(out.message)))
      && (out.Decoded? && (out.claims.sub.None? || out.claims.sub.value == "") ==>
            r.result == Failure(Wrap(SubMissingMessage)))
      && (out.Decoded? && out.claims.sub.Some? && out.claims.sub.value != "" ==>
            r.result == Success(out.claims.sub.value))
    ensures r.result.Success? ==>
      && r.result.value != ""
      && jwk.parsed.Success?
      && lib.decode(token, jwk.parsed.value, RStrip(c.issuer, '/')) == Decoded(Claims(Some(r.result.value)))
  {
    match jwk.parsed
    case Failure(m) => Verified(c, Failure(Wrap(m)), fetches)
    case Success(key) =>
      match lib.decode(token, key, RStrip(c.issuer, '/'))
      case ExpiredSignature => Verified(c, Failure(ExpiredMessage), fetches)
      case InvalidIssuer => Verified(c, Failure(BadIssuerMessage), fetches)
      case DecodeFailed(m) => Verified(c, Failure(Wrap(m)), fetches)
      case Decoded(claims) =>
        if claims.sub.None? || claims.sub.value == "" then Verified(c, Failure(Wrap(SubMissingMessage)), fetches)
        else Verified(c, Success(claims.sub.value), fetches)
  }

  /** `verify_token(token)`. `first` and `second` are the responses the key-set
      endpoint gives to the first and second request this call sends. */
  function VerifyToken(c: Client, token: string, lib: JwtLib, first: FetchResult, second: FetchResult): (r: Verified)
    ensures r.fetches <= 2
    ensures r.client.issuer == c.issuer && r.client.jwksUrl == c.jwksUrl
    ensures r.fetches == 0 ==> r.client == c
    ensures r.result.Failure? ==> IsVerifyError(r.result.error)
    ensures !HasKid(lib, token) ==> r.result.Failure?
    ensures r.result.Success? ==> r.result.value != "" && r.client.cache.Some?
    ensures GetJwks(c, first).jwks.Failure? ==>
      r.result == Failure(Wrap(GetJwks(c, first).jwks.error)) && r.fetches == 1
    ensures GetJwks(c, first).jwks.Success? && lib.unverifiedHeader(token).Failure? ==>
      r.result == Failure(Wrap(lib.unverifiedHeader(token).error))
    ensures GetJwks(c, first).jwks.Success? && lib.unverifiedHeader(token).Success? && !HasKid(lib, token) ==>
      r.result == Failure(Wrap(KidMissingMessage))
    ensures GetJwks(c, first).jwks.Failure? || !HasKid(lib, token)
            || SelectedKey(GetJwks(c, first).jwks.value, lib, token).Some? ==>
      r.client == GetJwks(c, first).client && r.fetches == (if GetJwks(c, first).fetched then 1 else 0)
    ensures ChosenKey(c, token, lib, first, second).Some? ==>
      r == Finish(r.client, token, lib, ChosenKey(c, token, lib, first, second).value, r.fetches)
  {
    var g1 := GetJwks(c, first);
    var used := if g1.fetched then 1 else 0;
    match g1.jwks
    case Failure(m) => Verified(g1.client, Failure(Wrap(m)), used)
    case Success(doc) =>
      match lib.unverifiedHeader(token)
      case Failure(m) => Verified(g1.client, Failure(Wrap(m)), used)
      case Success(header) =>
        if header.kid.None? || header.kid.value == "" then
          Verified(g1.client, Failure(Wrap(KidMissingMessage)), used)
        else
          var kid := header.kid.value;
          match FindKey(doc.KeyList(), kid)
          case Some(i) => Finish(g1.client, token, lib, doc.KeyList()[i], used)
          case None =>
            var g2 := GetJwks(g1.client.(cache := None), if g1.fetched then second else first);
            match g2.jwks
            case Failure(m) => Verified(g2.client, Failure(Wrap(m)), used + 1)
            case Success(doc2) =>
              match FindKey(doc2.KeyList(), kid)
              case None => Verified(g2.client, Failure(Wrap(NoKeyMessage(kid))), used + 1)
              case Some(j) => Finish(g2.client, token, lib, doc2.KeyList()[j], used + 1)
  }

  /** The key the verifier uses for `token` in key set `doc`, if any. */
  function SelectedKey(doc: JwksDoc, lib: JwtLib, token: string): Option<Jwk>
    requires HasKid(lib, token)
  {
    match FindKey(doc.KeyList(), lib.unverifiedHeader(token).value.kid.value)
    case Some(i) => Some(doc.KeyList()[i])
    case None => None
  }

  /** A true cache holding a key for the token's `kid` is used as is: no
      request is sent and the client is unchanged. */
  lemma CachedKeyNeedsNoFetch(c: Client, token: string, lib: JwtLib, first: FetchResult, second: FetchResult)
    requires c.cache.Some? && c.cache.value.Truthy()
    requires HasKid(lib, token) && SelectedKey(c.cache.value, lib, token).Some?
    ensures VerifyToken(c, token, lib, first, second).fetches == 0
    ensures VerifyToken(c, token, lib, first, second).client == c
  {
  }

  /** When the first key set has no key for the token's `kid`, the cache is
      cleared and exactly one more request is sent; the token is accepted only
      if the refetched set has a key for that `kid`, and that set is what is
      cached afterwards. */
  lemma NoMatchRefetchesOnce(c: Client, token: string, lib: JwtLib, first: FetchResult, second: FetchResult)
    requires HasKid(lib, token)
    requires GetJwks(c, first).jwks.Success?
    requires SelectedKey(GetJwks(c, first).jwks.value, lib, token).None?
    ensures var r := VerifyToken(c, token, lib, first, second);
      var g1 := GetJwks(c, first);
      var next := if g1.fetched then second else first;
      && r.fetches == (if g1.fetched then 2 else 1)
      && (next.FetchFailed? ==> r.result.Failure? && r.client.cache.None?)
      && (r.result.Success? ==> next.Fetched? && r.client.cache == Some(next.doc)
                                && SelectedKey(next.doc, lib, token).Some?)
      && (next.Fetched? && SelectedKey(next.doc, lib, token).None? ==>
            r.result == Failure(Wrap(NoKeyMessage(lib.unverifiedHeader(token).value.kid.value))))
  {
    var r := VerifyToken(c, token, lib, first, second);
    var g1 := GetJwks(c, first);
    var next := if g1.fetched then second else first;
    var g2 := GetJwks(g1.client.(cache := None), next);
    assert g2.fetched;
    if r.result.Success? {
      assert next.Fetched?;
      assert SelectedKey(next.doc, lib, token).Some?;
    }
  }

  /** Security: with a library that decodes only correctly signed tokens, an
      accepted token carries a valid signature by the first key, in the key
      set cached after the call, whose `kid` is the token header's `kid`. */
  lemma AcceptedTokenIsSigned(c: Client, token: string, lib: JwtLib, first: FetchResult, second: FetchResult)
    requires ChecksSignature(lib)
    requires VerifyToken(c, token, lib, first, second).result.Success?
    ensures HasKid(lib, token)
    ensures var r := VerifyToken(c, token, lib, first, second);
      && r.client.cache.Some?
      && var key := SelectedKey(r.client.cache.value, lib, token);
      && key.Some? && key.value.parsed.Success?
      && lib.signatureValid(token, key.value.parsed.value)
  {
    var r := VerifyToken(c, token, lib, first, second);
    var g1 := GetJwks(c, first);
    var doc := g1.jwks.value;
    var kid := lib.unverifiedHeader(token).value.kid.value;
    match FindKey(doc.KeyList(), kid)
    case Some(i) =>
      var jwk := doc.KeyList()[i];
      assert r == Finish(g1.client, token, lib, jwk, if g1.fetched then 1 else 0);
      assert lib.decode(token, jwk.parsed.value, RStrip(c.issuer, '/')).Decoded?;
    case None =>
      var g2 := GetJwks(g1.client.(cache := None), if g1.fetched then second else first);
      var doc2 := g2.jwks.value;
      var j := FindKey(doc2.KeyList(), kid).value;
      var jwk := doc2.KeyList()[j];
      assert r == Finish(g2.client, token, lib, jwk, if g1.fetched then 2 else 1);
      assert lib.decode(token, jwk.parsed.value, RStrip(c.issuer, '/')).Decoded?;
  }

  /** The key `verify_token` ends up decoding with: the first match in the
      first key set it obtains, or else the first match in the refetched set. */
  function ChosenKey(c: Client, token: string, lib: JwtLib, first: FetchResult, second: FetchResult): Option<Jwk> {
    var g1 := GetJwks(c, first);
    if !HasKid(lib, token) || g1.jwks.Failure? then None
    else
      match SelectedKey(g1.jwks.value, lib, token)
      case Some(k) => Some(k)
      case None =>
        var g2 := GetJwks(g1.client.(cache := None), if g1.fetched then second else first);
        if g2.jwks.Failure? then None else SelectedKey(g2.jwks.value, lib, token)
  }

  /** The non-empty `sub` that decoding `token` with `key` yields, if any. */
  function DecodedSub(c: Client, token: string, lib: JwtLib, key: Jwk): Option<string> {
    if key.parsed.Failure? then None
    else
      match lib.decode(token, key.parsed.value, RStrip(c.issuer, '/'))
      case Decoded(Claims(Some(sub))) => if sub != "" then Some(sub) else None
      case _ => None
  }

  /** Both directions of acceptance: a token is accepted exactly when a key
      is chosen for its `kid` and decoding with it yields a non-empty `sub`;
      the id returned is that `sub`, and the chosen key is the one selected
      from the key set cached afterwards. */
  lemma VerifyTokenAccepts(c: Client, token: string, lib: JwtLib, first: FetchResult, second: FetchResult)
    ensures var r := VerifyToken(c, token, lib, first, second);
      var key := ChosenKey(c, token, lib, first, second);
      && (r.result.Success? <==> key.Some? && DecodedSub(c, token, lib, key.value).Some?)
      && (r.result.Success? ==>
            && r.result == Success(DecodedSub(c, token, lib, key.value).value)
            && r.client.cache.Some? && SelectedKey(r.client.cache.value, lib, token) == key)
  {
    var r := VerifyToken(c, token, lib, first, second);
    var g1 := GetJwks(c, first);
    if HasKid(lib, token) && g1.jwks.Success? {
      var kid := lib.unverifiedHeader(token).value.kid.value;
      var used := if g1.fetched then 1 else 0;
      match FindKey(g1.jwks.value.KeyList(), kid)
      case Some(i) =>
        assert r == Finish(g1.client, token, lib, g1.jwks.value.KeyList()[i], used);
      case None =>
        var g2 := GetJwks(g1.client.(cache := None), if g1.fetched then second else first);
        if g2.jwks.Success? {
          match FindKey(g2.jwks.value.KeyList(), kid)
          case Some(j) =>
            assert r == Finish(g2.client, token, lib, g2.jwks.value.KeyList()[j], used + 1);
          case None =>
        }
    }
  }
}

=== FILE: header_value.dfy ===
/**
 * The header value a server receives for one `fetch` sets: the Fetch
 * Standard normalizes a header value by stripping leading and trailing HTTP
 * whitespace before the request is sent.
 */
module HeaderValue {

  /** HTTP whitespace: tab, line feed, carriage return and space. */
  predicate IsHttpSpace(c: char) {
    c == '\t' || c == '\n' || c == '\r' || c == ' '
  }

  /** A string made only of HTTP whitespace. */
  predicate IsHttpBlank(s: string) {
    forall i :: 0 <= i < |s| ==> IsHttpSpace(s[i])
  }

  lemma HttpBlankConcat(a: string, b: string)
    requires IsHttpBlank(a) && IsHttpBlank(b)
    ensures IsHttpBlank(a + b)
  {
    forall i | 0 <= i < |a + b| ensures IsHttpSpace((a + b)[i]) {
      if i < |a| { assert (a + b)[i] == a[i]; } else { assert (a + b)[i] == b[i - |a|]; }
    }
  }

  /** Drops leading HTTP whitespace. */
  function StripStart(h: string): (r: string)
    ensures |r| <= |h| && r == h[|h| - |r|..]
    ensures IsHttpBlank(h[..|h| - |r|])
    ensures r == [] || !IsHttpSpace(r[0])
  {
    if |h| > 0 && IsHttpSpace(h[0]) then
      var r := StripStart(h[1..]);
      assert h[..|h| - |r|] == [h[0]] + h[1..][..|h| - 1 - |r|];
      HttpBlankConcat([h[0]], h[1..][..|h| - 1 - |r|]);
      r
    else h
  }

  /** Drops trailing HTTP whitespace. */
  function StripEnd(h: string): (r: string)
    ensures |r| <= |h| && r == h[..|r|]
    ensures IsHttpBlank(h[|r|..])
    ensures r == [] || !IsHttpSpace(r[|r| - 1])
  {
    if |h| > 0 && IsHttpSpace(h[|h| - 1]) then
      var r := StripEnd(h[..|h| - 1]);
      assert h[|r|..] == h[..|h| - 1][|r|..] + [h[|h| - 1]];
      HttpBlankConcat(h[..|h| - 1][|r|..], [h[|h| - 1]]);
      r
    else h
  }

  /** `r` is `h` with the blank prefix `h[..i]` and a blank suffix removed. */
  predicate StrippedAt(h: string, r: string, i: int) {
    0 <= i <= |h| - |r| && r == h[i..i + |r|] && IsHttpBlank(h[..i]) && IsHttpBlank(h[i + |r|..])
  }

  /** The header value the server receives for `h`. */
  function Normalize(h: string): (r: string)
    ensures r == [] || (!IsHttpSpace(r[0]) && !IsHttpSpace(r[|r| - 1]))
    ensures exists i :: StrippedAt(h, r, i)
  {
    var t := StripStart(h);
    var r := StripEnd(t);
    var i := |h| - |t|;
    assert r == h[i..i + |r|];
    assert h[i + |r|..] == t[|r|..];
    assert StrippedAt(h, r, i);
    r
  }

  /** A value with no HTTP whitespace at either end is sent unchanged. */
  lemma NormalizeUnpadded(h: string)
    requires |h| > 0 && !IsHttpSpace(h[0]) && !IsHttpSpace(h[|h| - 1])
    ensures Normalize(h) == h
  {
    assert StripStart(h) == h;
    assert StripEnd(h) == h;
  }

  /** A value with one trailing space and no other padding is sent without
      that space. */
  lemma NormalizeDropsLast(h: string)
    requires |h| > 1 && h[|h| - 1] == ' '
    requires !IsHttpSpace(h[0]) && !IsHttpSpace(h[|h| - 2])
    ensures Normalize(h) == h[..|h| - 1]
  {
    assert StripStart(h) == h;
    var p := h[..|h| - 1];
    assert p[|p| - 1] == h[|h| - 2];
    assert StripEnd(p) == p;
  }
}

=== FILE: project_list.dfy ===
/**
 * The project list page and its creation form, as it appears in the home
 * page and in the dashboard page. The two differ only in how they report a
 * blank name and a failed creation, so one model with a `Variant` covers
 * both. Each handler is a pure function from the page state and the
 * outcomes of its awaits (token retrieval, HTTP response, JSON body) to the
 * state it leaves and the requests and alerts it produces.
 */
module ProjectList {
  import opened Results
  import opened Text

  /** `Home` is `app/page.tsx`; `Dashboard` is `app/dashboard/page.tsx`. */
  datatype Variant = Home | Dashboard

  datatype Project = Project(id: int, name: string, description: Option<string>)

  datatype PageState = PageState(
    projects: seq<Project>,
    loading: bool,
    error: Option<string>,
    modalOpen: bool,
    name: string,
    description: string,
    creating: bool)

  /** What a handler sends out: the two API requests, with their
      `Authorization` header, and blocking alerts. */
  datatype Effect =
    | ListRequest(authorization: string)
    | CreateRequest(authorization: string, name: string, description: string)
    | Alert(message: string)

  datatype Step = Step(state: PageState, effects: seq<Effect>)

  /** Outcome of `await getToken()`: it throws, or yields a token or `null`. */
  datatype TokenResult = TokenThrew(message: string) | TokenValue(token: Option<string>)

  /** Outcome of `GET /api/projects`: `fetch` rejects, or a response arrives;
      `body` is what `response.json()` would give, read only when `ok`. */
  datatype ListResponse =
    | ListNetworkError(message: string)
    | ListReply(ok: bool, statusText: string, body: Result<seq<Project>, string>)

  /** Outcome of `POST /api/projects`; its body is never read. */
  datatype CreateResponse = CreateNetworkError(message: string) | CreateReply(ok: bool)

  const TokenMissingMessage := "Authentication token not found."
  const FetchFailedPrefix := "Failed to fetch projects: "
  const CreateFailedMessage := "Proje oluşturulamadı."
  const BlankNameAlert := "Proje adı boş olamaz."

  /** A JavaScript string is truthy when it is not empty. */
  predicate Truthy(t: Option<string>) {
    t.Some? && t.value != ""
  }

  /** `Bearer ${token}`: a `null` token is written as `null`. */
  function BearerHeader(token: Option<string>): (h: string)
    ensures "Bearer " <= h
    ensures token.Some? ==> h[7..] == token.value
    ensures token.None? ==> h[7..] == "null"
  {
    "Bearer " + token.GetOr("null")
  }

  /** The state both pages start in. */
  const Initial := PageState([], true, None, false, "", "", false)

  /** The list a fetch with these outcomes delivers, if it succeeds. */
  function Delivered(token: TokenResult, response: ListResponse): Option<seq<Project>> {
    if token.TokenValue? && Truthy(token.token) && response.ListReply? && response.ok && response.body.Success?
    then Some(response.body.value)
    else None
  }

  /** Everything but the list, the loading flag and the error is untouched. */
  predicate SameForm(a: PageState, b: PageState) {
    a.modalOpen == b.modalOpen && a.name == b.name && a.description == b.description && a.creating == b.creating
  }

  /** `fetchProjects`. Every failure is caught: its message becomes `error`
      and the list is kept. On success the list is replaced by the response
      body as is. `error` is never reset and `loading` always ends false. */
  function FetchProjects(s: PageState, token: TokenResult, response: ListResponse): (r: Step)
    ensures !r.state.loading && SameForm(r.state, s)
    ensures Delivered(token, response).Some? ==>
      r.state.projects == Delivered(token, response).value && r.state.error == s.error
    ensures Delivered(token, response).None? ==>
      r.state.projects == s.projects && r.state.error.Some?
    ensures token.TokenThrew? ==> r.state.error == Some(token.message)
    ensures token.TokenValue? && !Truthy(token.token) ==> r.state.error == Some(TokenMissingMessage)
    ensures token.TokenValue? && Truthy(token.token) && response.ListNetworkError? ==>
      r.state.error == Some(response.message)
    ensures token.TokenValue? && Truthy(token.token) && response.ListReply? && !response.ok ==>
      r.state.error == Some(FetchFailedPrefix + response.statusText)
    ensures token.TokenValue? && Truthy(token.token) && response.ListReply? && response.ok && response.body.Failure? ==>
      r.state.error == Some(response.body.error)
    ensures r.effects == (if token.TokenValue? && Truthy(token.token) then [ListRequest(BearerHeader(token.token))] else [])
  {
    var fail := (m: string) => s.(error := Some(m), loading := false);
    match token
    case TokenThrew(m) => Step(fail(m), [])
    case TokenValue(t) =>
      if !Truthy(t) then Step(fail(TokenMissingMessage), [])
      else
        var sent := [ListRequest(BearerHeader(t))];
        match response
        case ListNetworkError(m) => Step(fail(m), sent)
        case ListReply(ok, statusText, body) =>
          if !ok then Step(fail(FetchFailedPrefix + statusText), sent)
          else
            match body
            case Failure(m) => Step(fail(m), sent)
            case Success(data) => Step(s.(projects := data, loading := false), sent)
  }

  /** Fetching twice against an unchanged backend leaves what fetching once
      leaves, and sends the same request again. */
  lemma FetchIdempotent(s: PageState, token: TokenResult, response: ListResponse)
    ensures var once := FetchProjects(s, token, response);
      var twice := FetchProjects(once.state, token, response);
      twice.state == once.state && twice.effects == once.effects
  {
  }

  /** How a failed creation is reported: the home page stores the message
      in `error`, the dashboard alerts it and leaves `error` alone. */
  function CreateFailed(v: Variant, s: PageState, message: string, sent: seq<Effect>): (r: Step)
    ensures r.state.projects == s.projects && !r.state.creating && r.state.loading == s.loading
    ensures r.state.modalOpen == s.modalOpen && r.state.name == s.name && r.state.description == s.description
    ensures v == Home ==> r.state.error == Some(message) && r.effects == sent
    ensures v == Dashboard ==> r.state.error == s.error && r.effects == sent + [Alert("Hata: " + message)]
  {
    match v
    case Home => Step(s.(error := Some(message), creating := false), sent)
    case Dashboard => Step(s.(creating := false), sent + [Alert("Hata: " + message)])
  }

  /** The create request the form sends with this token: the draft fields as
      typed, not trimmed. */
  function CreateRequestFor(s: PageState, token: Option<string>): Effect {
    CreateRequest(BearerHeader(token), s.name, s.description)
  }

  /** The creation succeeded: the token was obtained and the reply was ok. */
  predicate Created(token: TokenResult, post: CreateResponse) {
    token.TokenValue? && post.CreateReply? && post.ok
  }

  /** `handleCreateProject` past the blank-name check. The submitting flag
      is raised, the draft is posted with whatever token was obtained; on
      success the form closes, the draft is cleared and the list is refetched
      once; on failure the draft and the modal are kept and no refetch
      happens. The submitting flag always ends false. */
  function PostDraft(v: Variant, s: PageState, token: TokenResult, post: CreateResponse,
                     refreshToken: TokenResult, refreshResponse: ListResponse): (r: Step)
    ensures !r.state.creating
    ensures token.TokenValue? ==> |r.effects| >= 1 && r.effects[0] == CreateRequestFor(s, token.token)
    ensures Created(token, post) ==>
      var refresh := FetchProjects(s.(modalOpen := false, name := "", description := ""), refreshToken, refreshResponse);
      && !r.state.modalOpen && r.state.name == "" && r.state.description == ""
      && r.state.projects == refresh.state.projects && r.state.error == refresh.state.error
      && !r.state.loading
      && r.effects == [CreateRequestFor(s, token.token)] + refresh.effects
    ensures !Created(token, post) ==>
      && r.state.projects == s.projects && r.state.loading == s.loading
      && r.state.modalOpen == s.modalOpen && r.state.name == s.name && r.state.description == s.description
      && (forall i :: 0 <= i < |r.effects| ==> !r.effects[i].ListRequest?)
      && (v == Dashboard ==> r.state.error == s.error)
      && (v == Home ==> r.state.error.Some?)
    ensures token.TokenThrew? ==> r == CreateFailed(v, s.(creating := true), token.message, [])
    ensures token.TokenValue? && post.CreateNetworkError? ==>
      r == CreateFailed(v, s.(creating := true), post.message, [CreateRequestFor(s, token.token)])
    ensures token.TokenValue? && post.CreateReply? && !post.ok ==>
      r == CreateFailed(v, s.(creating := true), CreateFailedMessage, [CreateRequestFor(s, token.token)])
  {
    var busy := s.(creating := true);
    match token
    case TokenThrew(m) => CreateFailed(v, busy, m, [])
    case TokenValue(t) =>
      var sent := [CreateRequestFor(s, t)];
      match post
      case CreateNetworkError(m) => CreateFailed(v, busy, m, sent)
      case CreateReply(ok) =>
        if !ok then CreateFailed(v, busy, CreateFailedMessage, sent)
        else
          var cleared := busy.(modalOpen := false, name := "", description := "");
          var refresh := FetchProjects(cleared, refreshToken, refreshResponse);
          assert cleared == s.(modalOpen := false, name := "", description := "").(creating := true);
          Step(refresh.state.(creating := false), sent + refresh.effects)
  }

  /** `handleCreateProject`. A name that JavaScript `trim` empties stops the
      handler before any request and any state change; the dashboard alerts
      it, the home page returns silently. */
  function CreateProject(v: Variant, s: PageState, token: TokenResult, post: CreateResponse,
                         refreshToken: TokenResult, refreshResponse: ListResponse): (r: Step)
    ensures IsBlank(s.name) ==> r.state == s
    ensures IsBlank(s.name) ==> r.effects == (if v == Dashboard then [Alert(BlankNameAlert)] else [])
    ensures !IsBlank(s.name) ==> r == PostDraft(v, s, token, post, refreshToken, refreshResponse)
  {
    TrimEmptyIffBlank(s.name);
    if Trim(s.name) == [] then
      Step(s, if v == Dashboard then [Alert(BlankNameAlert)] else [])
    else
      PostDraft(v, s, token, post, refreshToken, refreshResponse)
  }

  /** The modal's open button. */
  function OpenForm(s: PageState): (r: PageState)
    ensures r.modalOpen
    ensures r.(modalOpen := s.modalOpen) == s
  {
    s.(modalOpen := true)
  }

  /** The modal's cancel control. It closes the modal but keeps the draft.
      The dashboard's cancel button is disabled while a creation is running;
      the home page's dialog can always be closed. */
  function CancelForm(v: Variant, s: PageState): (r: PageState)
    ensures r.modalOpen <==> v == Dashboard && s.creating && s.modalOpen
    ensures r.(modalOpen := s.modalOpen) == s
  {
    if v == Dashboard && s.creating then s else s.(modalOpen := false)
  }

  /** A user action or a lifecycle event, with the outcomes of its awaits. */
  datatype Event =
    | Load(token: TokenResult, response: ListResponse)
    | Submit(token: TokenResult, post: CreateResponse, refreshToken: TokenResult, refreshResponse: ListResponse)
    | Open
    | Cancel
    | TypeName(text: string)
    | TypeDescription(text: string)

  /** One event: `Load` is the mount effect, `Submit` the form's submit
      handler (its button is disabled while a creation runs, and the browser
      refuses to submit while the `required` name input is empty), the rest
      are the modal controls and the two inputs. */
  function Apply(v: Variant, s: PageState, e: Event): (r: Step)
    ensures e.Submit? && (s.creating || s.name == "") ==> r == Step(s, [])
    ensures e.TypeName? ==> r == Step(s.(name := e.text), [])
    ensures e.TypeDescription? ==> r == Step(s.(description := e.text), [])
    ensures e.Open? || e.Cancel? ==> r.effects == [] && r.state.(modalOpen := s.modalOpen) == s
    ensures e.Open? ==> r == Step(OpenForm(s), [])
    ensures e.Cancel? ==> r == Step(CancelForm(v, s), [])
    ensures e.Load? ==> r == FetchProjects(s, e.token, e.response)
    ensures e.Submit? && !s.creating && s.name != "" ==> r == CreateProject(v, s, e.token, e.post, e.refreshToken, e.refreshResponse)
  {
    match e
    case Load(t, resp) => FetchProjects(s, t, resp)
    case Submit(t, post, rt, rr) =>
      if s.creating || s.name == "" then Step(s, []) else CreateProject(v, s, t, post, rt, rr)
    case Open => Step(OpenForm(s), [])
    case Cancel => Step(CancelForm(v, s), [])
    case TypeName(text) => Step(s.(name := text), [])
    case TypeDescription(text) => Step(s.(description := text), [])
  }

  /** A sequence of events from `s`, with all effects in order. */
  function Run(v: Variant, s: PageState, events: seq<Event>): Step
    decreases |events|
  {
    if |events| == 0 then Step(s, [])
    else
      var first := Apply(v, s, events[0]);
      var rest := Run(v, first.state, events[1..]);
      Step(rest.state, first.effects + rest.effects)
  }

  /** No single event sets `error` back to `null`. */
  lemma ApplyKeepsError(v: Variant, s: PageState, e: Event)
    requires s.error.Some?
    ensures Apply(v, s, e).state.error.Some?
  {
    match e
    case Load(t, resp) =>
    case Submit(t, post, rt, rr) =>
      if !s.creating && !IsBlank(s.name) && Created(t, post) {
        var cleared := s.(modalOpen := false, name := "", description := "");
        assert FetchProjects(cleared, rt, rr).state.error.Some?;
      }
    case Open =>
    case Cancel =>
    case TypeName(text) =>
    case TypeDescription(text) =>
  }

  /** No event sets `error` back to `null`. */
  lemma {:induction false} ErrorNeverCleared(v: Variant, s: PageState, events: seq<Event>)
    requires s.error.Some?
    ensures Run(v, s, events).state.error.Some?
    decreases |events|
  {
    if |events| > 0 {
      var first := Apply(v, s, events[0]);
      ApplyKeepsError(v, s, events[0]);
      ErrorNeverCleared(v, first.state, events[1..]);
      assert Run(v, s, events).state == Run(v, first.state, events[1..]).state;
    }
  }

  /** A settled page (neither loading nor submitting) stays settled after any
      single event. */
  lemma ApplyKeepsSettled(v: Variant, s: PageState, e: Event)
    requires !s.creating && !s.loading
    ensures !Apply(v, s, e).state.creating && !Apply(v, s, e).state.loading
  {
  }

  /** Each handler is one atomic step here, so from a settled page no
      sequence of events ends with the page loading or submitting. (The
      program itself shows the loading notice again while a refresh awaits.) */
  lemma {:induction false} SettledStaysSettled(v: Variant, s: PageState, events: seq<Event>)
    requires !s.creating && !s.loading
    ensures !Run(v, s, events).state.creating && !Run(v, s, events).state.loading
    decreases |events|
  {
    if |events| > 0 {
      var first := Apply(v, s, events[0]);
      ApplyKeepsSettled(v, s, events[0]);
      SettledStaysSettled(v, first.state, events[1..]);
      assert Run(v, s, events).state == Run(v, first.state, events[1..]).state;
    }
  }

  /** The list only ever holds the initial list or a list some `Load` or
      refresh delivered, unchanged. */
  predicate DeliveredBy(events: seq<Event>, list: seq<Project>) {
    exists i :: 0 <= i < |events| && EventDelivers(events[i], list)
  }

  predicate EventDelivers(e: Event, list: seq<Project>) {
    || (e.Load? && Delivered(e.token, e.response) == Some(list))
    || (e.Submit? && Delivered(e.refreshToken, e.refreshResponse) == Some(list))
  }

  lemma {:induction false} ListOnlyReplacedWholesale(v: Variant, s: PageState, events: seq<Event>)
    ensures var l := Run(v, s, events).state.projects;
      l == s.projects || DeliveredBy(events, l)
    decreases |events|
  {
    if |events| > 0 {
      var first := Apply(v, s, events[0]);
      ListOnlyReplacedWholesale(v, first.state, events[1..]);
      var l := Run(v, s, events).state.projects;
      if DeliveredBy(events[1..], l) {
        var i :| 0 <= i < |events[1..]| && EventDelivers(events[1..][i], l);
        assert EventDelivers(events[i + 1], l);
      } else if l != s.projects {
        assert l == first.state.projects;
        assert EventDelivers(events[0], l);
      }
    }
  }
}

=== FILE: project_view.dfy ===
/**
 * What the project list page shows for a state: the loading notice first,
 * then the error, then the list or its empty-state invitation. Both pages
 * select the same way; only their markup differs.
 */
module ProjectView {
  import opened Results
  import opened Text
  import opened ProjectList

  const LoadingText := "Projeler Yükleniyor..."
  const NoDescriptionText := "Açıklama yok."

  /** One rendered project: its key, title and description line. */
  datatype Card = Card(key: int, title: string, text: string)

  datatype View =
    | LoadingView(notice: string)
    | ErrorView(message: string)
    | EmptyView
    | ListView(cards: seq<Card>)

  /** `project.description || "Açıklama yok."`: `null` and `""` fall back. */
  function DescriptionText(d: Option<string>): (t: string)
    ensures t != ""
    ensures d.Some? && d.value != "" ==> t == d.value
    ensures d.None? || d.value == "" ==> t == NoDescriptionText
  {
    if d.Some? && d.value != "" then d.value else NoDescriptionText
  }

  function CardOf(p: Project): Card {
    Card(p.id, p.name, DescriptionText(p.description))
  }

  /** The page's render selection. An empty error message is falsy in
      JavaScript and does not hide the list. */
  function Render(s: PageState): (v: View)
    ensures v.LoadingView? <==> s.loading
    ensures v.ErrorView? <==> !s.loading && Truthy(s.error)
    ensures v.ErrorView? ==> v.message == "Hata: " + s.error.value
    ensures v.EmptyView? <==> !s.loading && !Truthy(s.error) && |s.projects| == 0
    ensures v.ListView? ==> |v.cards| == |s.projects| > 0
    ensures v.ListView? ==> forall i :: 0 <= i < |s.projects| ==>
      v.cards[i].key == s.projects[i].id && v.cards[i].title == s.projects[i].name
      && v.cards[i].text == DescriptionText(s.projects[i].description)
  {
    if s.loading then LoadingView(LoadingText)
    else if Truthy(s.error) then ErrorView("Hata: " + s.error.value)
    else if |s.projects| > 0 then ListView(seq(|s.projects|, i requires 0 <= i < |s.projects| => CardOf(s.projects[i])))
    else EmptyView
  }

  /** Both pages open on the loading notice. */
  lemma InitialShowsLoading()
    ensures Render(Initial) == LoadingView(LoadingText)
  {
  }

  /** The scenario of one project without a description: after a successful
      load the page lists it with the fallback text. */
  lemma SingleProjectScenario(token: string)
    requires token != ""
    ensures var body := [Project(1, "Alpha", None)];
      var s := FetchProjects(Initial, TokenValue(Some(token)), ListReply(true, "OK", Success(body))).state;
      Render(s) == ListView([Card(1, "Alpha", NoDescriptionText)])
  {
  }

  /** On the home page a failed creation replaces the whole page by the error
      and, since no event clears the error, the list is not shown again
      unless a later message is empty. */
  lemma HomeCreateFailureShowsError(s: PageState, token: TokenResult, post: CreateResponse,
                                    refreshToken: TokenResult, refreshResponse: ListResponse)
    requires !s.loading && !IsBlank(s.name) && !Created(token, post)
    requires post.CreateReply? || post.message != ""
    requires token.TokenThrew? ==> token.message != ""
    ensures Render(CreateProject(Home, s, token, post, refreshToken, refreshResponse).state).ErrorView?
  {
  }
}

=== FILE: results.dfy ===
/** Failure-carrying values shared by every module of the model. */
module Results {

  /** A value that may be absent: JavaScript `null`, Python `None`, a missing JSON member. */
  datatype Option<+T> = None | Some(value: T) {
    function GetOr(default: T): T {
      match this
      case Some(v) => v
      case None => default
    }
  }

  /** The outcome of a step that can raise: the value, or the error it raises. */
  datatype Result<+T, +E> = Success(value: T) | Failure(error: E)
}

=== FILE: text.dfy ===
/**
 * The three string primitives the core relies on, written out so that their
 * edge cases are explicit: JavaScript's `String.prototype.trim`, Python's
 * `str.split(' ')` with an explicit separator, and Python's `str.rstrip(c)`.
 */
module Text {

  /** A character `trim` removes: ECMAScript WhiteSpace (tab, vertical tab,
      form feed, BOM and every Zs space) and LineTerminator code points. */
  predicate IsJsSpace(c: char) {
    var n := c as int;
    || n == 0x09 || n == 0x0A || n == 0x0B || n == 0x0C || n == 0x0D
    || n == 0x20 || n == 0xA0 || n == 0x1680
    || (0x2000 <= n <= 0x200A)
    || n == 0x2028 || n == 0x2029 || n == 0x202F || n == 0x205F
    || n == 0x3000 || n == 0xFEFF
  }

  /** Reference definition: a string made only of trimmable characters. */
  predicate IsBlank(s: string) {
    forall i :: 0 <= i < |s| ==> IsJsSpace(s[i])
  }

  lemma BlankConcat(a: string, b: string)
    requires IsBlank(a) && IsBlank(b)
    ensures IsBlank(a + b)
  {
    forall i | 0 <= i < |a + b| ensures IsJsSpace((a + b)[i]) {
      if i < |a| { assert (a + b)[i] == a[i]; } else { assert (a + b)[i] == b[i - |a|]; }
    }
  }

  /** Drops leading trimmable characters; the result is the longest suffix
      that does not start with one. */
  function TrimStart(s: string): (r: string)
    ensures |r| <= |s| && r == s[|s| - |r|..]
    ensures IsBlank(s[..|s| - |r|])
    ensures r == [] || !IsJsSpace(r[0])
  {
    if |s| > 0 && IsJsSpace(s[0]) then
      var r := TrimStart(s[1..]);
      assert s[..|s| - |r|] == [s[0]] + s[1..][..|s| - 1 - |r|];
      BlankConcat([s[0]], s[1..][..|s| - 1 - |r|]);
      r
    else s
  }

  /** Drops trailing trimmable characters; the result is the longest prefix
      that does not end with one. */
  function TrimEnd(s: string): (r: string)
    ensures |r| <= |s| && r == s[..|r|]
    ensures IsBlank(s[|r|..])
    ensures r == [] || !IsJsSpace(r[|r| - 1])
  {
    if |s| > 0 && IsJsSpace(s[|s| - 1]) then
      var r := TrimEnd(s[..|s| - 1]);
      assert s[|r|..] == s[..|s| - 1][|r|..] + [s[|s| - 1]];
      BlankConcat(s[..|s| - 1][|r|..], [s[|s| - 1]]);
      r
    else s
  }

  /** `r` is `s` with the blank prefix `s[..i]` and a blank suffix removed. */
  predicate TrimmedAt(s: string, r: string, i: int) {
    0 <= i <= |s| - |r| && r == s[i..i + |r|] && IsBlank(s[..i]) && IsBlank(s[i + |r|..])
  }

  /** JavaScript `s.trim()`. */
  function Trim(s: string): (r: string)
    ensures |r| <= |s|
    ensures r == [] || (!IsJsSpace(r[0]) && !IsJsSpace(r[|r| - 1]))
    ensures exists i :: TrimmedAt(s, r, i)
  {
    var t := TrimStart(s);
    var r := TrimEnd(t);
    var i := |s| - |t|;
    assert r == s[i..i + |r|];
    assert s[i + |r|..] == t[|r|..];
    assert TrimmedAt(s, r, i);
    r
  }

  /** `!s.trim()` holds exactly when every character of `s` is trimmable. */
  lemma TrimEmptyIffBlank(s: string)
    ensures Trim(s) == [] <==> IsBlank(s)
  {
    var t := TrimStart(s);
    if Trim(s) == [] {
      assert IsBlank(t[0..]);
      assert t[0..] == t;
      assert s[..|s| - |t|] == s;
    }
  }

  /** Number of occurrences of `c` in `s`. */
  function Count(s: string, c: char): nat {
    if |s| == 0 then 0 else (if s[0] == c then 1 else 0) + Count(s[1..], c)
  }

  lemma {:induction false} CountZeroIffAbsent(s: string, c: char)
    ensures Count(s, c) == 0 <==> c !in s
  {
    if |s| > 0 {
      CountZeroIffAbsent(s[1..], c);
      assert s == [s[0]] + s[1..];
    }
  }

  /** Inverse of `Split`: the parts glued back together with `sep`. */
  function Join(parts: seq<string>, sep: char): string
    requires |parts| > 0
  {
    if |parts| == 1 then parts[0] else parts[0] + [sep] + Join(parts[1..], sep)
  }

  /** Python `s.split(sep)` with an explicit one-character separator: every
      occurrence splits, empty parts are kept, so the empty string gives `[""]`. */
  function Split(s: string, sep: char): (parts: seq<string>)
    ensures |parts| == Count(s, sep) + 1
    ensures forall i :: 0 <= i < |parts| ==> sep !in parts[i]
    ensures Join(parts, sep) == s
    decreases |s|
  {
    if |s| == 0 then [""]
    else
      var rest := Split(s[1..], sep);
      if s[0] == sep then
        assert Join([""] + rest, sep) == [sep] + s[1..];
        [""] + rest
      else
        var parts := [[s[0]] + rest[0]] + rest[1..];
        assert parts[1..] == rest[1..];
        assert Join(parts, sep) == s by {
          if |rest| > 1 {
            assert Join(rest, sep) == rest[0] + [sep] + Join(rest[1..], sep);
          }
        }
        parts
  }

  /** A string without the separator is one part. */
  lemma {:induction false} SplitAbsent(s: string, sep: char)
    requires sep !in s
    ensures Split(s, sep) == [s]
  {
    CountZeroIffAbsent(s, sep);
    var parts := Split(s, sep);
    assert |parts| == 1;
  }

  /** The first occurrence of the separator ends the first part. */
  lemma {:induction false} SplitFirst(a: string, sep: char, rest: string)
    requires sep !in a
    ensures Split(a + [sep] + rest, sep) == [a] + Split(rest, sep)
    decreases |a|
  {
    if |a| == 0 {
      assert a + [sep] + rest == [sep] + rest;
      assert ([sep] + rest)[1..] == rest;
    } else {
      var s := a + [sep] + rest;
      assert s[1..] == a[1..] + [sep] + rest;
      SplitFirst(a[1..], sep, rest);
      assert [a[0]] + a[1..] == a;
    }
  }

  /** Python `s.rstrip(c)`: all trailing copies of `c` removed, nothing else. */
  function RStrip(s: string, c: char): (r: string)
    ensures |r| <= |s| && r == s[..|r|]
    ensures r == [] || r[|r| - 1] != c
    ensures forall i :: |r| <= i < |s| ==> s[i] == c
  {
    if |s| > 0 && s[|s| - 1] == c then
      var r := RStrip(s[..|s| - 1], c);
      assert forall i :: |r| <= i < |s| - 1 ==> s[..|s| - 1][i] == s[i];
      r
    else s
  }

  /** `k` copies of `c`. */
  function Repeat(c: char, k: nat): string {
    if k == 0 then [] else Repeat(c, k - 1) + [c]
  }

  /** Appending copies of `c` does not change what `rstrip(c)` returns. */
  lemma {:induction false} RStripIgnoresTrailing(s: string, c: char, k: nat)
    ensures RStrip(s + Repeat(c, k), c) == RStrip(s, c)
    decreases k
  {
    if k == 0 {
      assert s + Repeat(c, k) == s;
    } else {
      var u := s + Repeat(c, k - 1);
      calc {
        RStrip(s + Repeat(c, k), c);
        { assert s + Repeat(c, k) == u + [c]; }
        RStrip(u + [c], c);
        { RStripDropsOne(u, c); }
        RStrip(u, c);
        { RStripIgnoresTrailing(s, c, k - 1); }
        RStrip(s, c);
      }
    }
  }

  lemma RStripDropsOne(u: string, c: char)
    ensures RStrip(u + [c], c) == RStrip(u, c)
  {
    assert (u + [c])[..|u|] == u;
  }
}

=== FILE: wiring.dfy ===
/**
 * How the two halves meet: the `Authorization` header the pages build and
 * the backend's header check, and the listing the backend returns as the
 * page renders it.
 */
module Wiring {
  import opened Results
  import ProjectList
  import ProjectView
  import Backend
  import Clerk = ClerkClient
  import Text
  import opened HeaderValue

  /** The JSON the backend returns for a row, as the pages read it; the
      owner id is sent but not read. */
  function ToWire(rows: seq<Backend.ProjectRow>): (ps: seq<ProjectList.Project>)
    ensures |ps| == |rows|
    ensures forall i :: 0 <= i < |rows| ==>
      ps[i].id == rows[i].id && ps[i].name == rows[i].name && ps[i].description == rows[i].description
  {
    seq(|rows|, i requires 0 <= i < |rows| => ProjectList.Project(rows[i].id, rows[i].name, rows[i].description))
  }

  /** The header the pages send reaches token verification with the page's
      token exactly when that token has no space. */
  lemma PageHeaderReachesVerification(token: string)
    ensures Backend.ParseAuthorization(Some(ProjectList.BearerHeader(Some(token)))).Success? <==> ' ' !in token
    ensures ' ' !in token ==>
      Backend.ParseAuthorization(Some(ProjectList.BearerHeader(Some(token)))) == Success(token)
  {
    var h := ProjectList.BearerHeader(Some(token));
    assert h == "Bearer " + token;
    Backend.ParseAuthorizationExact(h, token);
  }

  /** A token shaped like a JWT: non-empty printable ASCII. */
  predicate JwtShaped(token: string) {
    token != "" && forall i :: 0 <= i < |token| ==> '!' <= token[i] <= '~'
  }

  /** For a JWT-shaped token the header the server receives is the one the
      page built, and verification gets exactly the page's token. */
  lemma SentHeaderReachesVerification(token: string)
    requires JwtShaped(token)
    ensures Normalize(ProjectList.BearerHeader(Some(token))) == ProjectList.BearerHeader(Some(token))
    ensures Backend.ParseAuthorization(Some(Normalize(ProjectList.BearerHeader(Some(token))))) == Success(token)
  {
    var h := ProjectList.BearerHeader(Some(token));
    assert h == "Bearer " + token;
    assert h[0] == 'B' && h[|h| - 1] == token[|token| - 1];
    NormalizeUnpadded(h);
    assert ' ' !in token by {
      forall i | 0 <= i < |token| ensures token[i] != ' ' { }
    }
    PageHeaderReachesVerification(token);
  }

  /** The create handler does not check that its token is non-empty: the
      empty token's header `Bearer ` arrives as the bare `Bearer` and is
      refused. */
  lemma EmptyTokenHeaderRefused()
    ensures Normalize(ProjectList.BearerHeader(Some(""))) == "Bearer"
    ensures Backend.ParseAuthorization(Some(Normalize(ProjectList.BearerHeader(Some(""))))).Failure?
  {
    var e := ProjectList.BearerHeader(Some(""));
    assert e == "Bearer ";
    NormalizeDropsLast(e);
    assert e[..|e| - 1] == "Bearer";
    Text.SplitAbsent("Bearer", ' ');
  }

  /** The create handler does not check its token: without a session it
      sends `Bearer null`, and the backend hands the string `null` to
      verification. */
  lemma NullTokenIsVerifiedAsText()
    ensures Normalize(ProjectList.BearerHeader(None)) == ProjectList.BearerHeader(None)
    ensures Backend.ParseAuthorization(Some(ProjectList.BearerHeader(None))) == Success("null")
  {
    var h := ProjectList.BearerHeader(None);
    assert Normalize(h) == h by {
      assert h == "Bearer " + "null";
      assert h[0] == 'B' && h[|h| - 1] == 'l';
      NormalizeUnpadded(h);
    }
    Backend.BearerHeaderAccepted("null");
  }

  /** What the page shows for the listing a request with header `header`
      gets: nothing is claimed when the request fails; otherwise the listing
      belongs to the user `token` verifies as, and the page shows one card
      per returned row, in the order the backend sent them, or the empty
      state when there are none. */
  predicate ShowsOwnListing(db: Backend.Db, client: Clerk.Client, header: Option<string>, lib: Clerk.JwtLib,
                            first: Clerk.FetchResult, second: Clerk.FetchResult,
                            s: ProjectList.PageState, token: string, statusText: string)
  {
    var served := Backend.ReadProjects(db, client, header, lib, first, second);
    served.response.Success? ==>
      var rows := served.response.value;
      var id := Backend.AuthenticatedId(client, header, lib, first, second);
      var reply := ProjectList.ListReply(true, statusText, Success(ToWire(rows)));
      var view := ProjectView.Render(ProjectList.FetchProjects(s, ProjectList.TokenValue(Some(token)), reply).state);
      && id.Some?
      && Clerk.VerifyToken(client, token, lib, first, second).result == Success(id.value)
      && (|rows| == 0 <==> view.EmptyView?)
      && (|rows| > 0 <==> view.ListView?)
      && (view.ListView? ==> |view.cards| == |rows| && forall i :: 0 <= i < |rows| ==>
            && rows[i].ownerId == id.value && rows[i] in db.projects
            && view.cards[i].key == rows[i].id && view.cards[i].title == rows[i].name
            && view.cards[i].text == ProjectView.DescriptionText(rows[i].description))
  }

  /** A request whose header parses to the page's token: its listing, as the
      page renders it, is the user's own, unless an earlier error is already
      on screen. */
  lemma ListingReachesPage(db: Backend.Db, client: Clerk.Client, header: Option<string>, lib: Clerk.JwtLib,
                           first: Clerk.FetchResult, second: Clerk.FetchResult,
                           s: ProjectList.PageState, token: string, statusText: string)
    requires token != "" && !ProjectList.Truthy(s.error)
    requires Backend.ParseAuthorization(header) == Success(token)
    ensures ShowsOwnListing(db, client, header, lib, first, second, s, token, statusText)
  {
    var served := Backend.ReadProjects(db, client, header, lib, first, second);
    if served.response.Success? {
      var rows := served.response.value;
      var owner := Backend.AuthenticatedId(client, header, lib, first, second).value;
      assert owner == Clerk.VerifyToken(client, token, lib, first, second).result.value;
      assert forall i :: 0 <= i < |rows| ==> rows[i].ownerId == owner && rows[i] in db.projects by {
        forall i | 0 <= i < |rows| ensures rows[i].ownerId == owner && rows[i] in db.projects {
          assert rows[i] in rows;
        }
      }
    }
  }

  /** End to end: the header the page builds for a JWT-shaped token, as
      `fetch` sends it, gets the user's own listing onto the page, unless an
      earlier error is already on screen. */
  lemma PageShowsOwnProjects(db: Backend.Db, client: Clerk.Client, header: Option<string>, lib: Clerk.JwtLib,
                             first: Clerk.FetchResult, second: Clerk.FetchResult,
                             s: ProjectList.PageState, token: string, statusText: string)
    requires JwtShaped(token) && !ProjectList.Truthy(s.error)
    requires header == Some(Normalize(ProjectList.BearerHeader(Some(token))))
    ensures ShowsOwnListing(db, client, header, lib, first, second, s, token, statusText)
  {
    assert Backend.ParseAuthorization(header) == Success(token) by {
      SentHeaderReachesVerification(token);
    }
    ListingReachesPage(db, client, header, lib, first, second, s, token, statusText);
  }
}
